=== FILE: README.md ===
# Serial-link power control: link state machine and machine registry

This project models the core of a small backend that switches physically
attached machines on and off through the handshake lines of their serial
links. Each machine has one serial link. The two output lines, DTR and RTS,
act as soft switches. The two input lines, CTS and DSR, act as status sensors.
The console bytes arriving on the link are kept as a bounded log.

Two source files are modelled:

- `TtyLink` (`tty_link.dfy`) models `TTYHardwareInterface`. The link is an
  immutable record with these parts:
  - the handle (absent, opening, or open);
  - the DTR/RTS shadow;
  - the remembered reconnect timer and the set of timers still armed;
  - the baseline clears still in flight;
  - the permits of the write semaphore.

  Every library callback and every timer expiry is a pure transition on this
  record. Every hardware answer is a parameter: `LineRead` for a line query,
  `WriteAnswer` for a line write. `Valid` is the state-machine invariant: the
  semaphore permit is free between operations, and at most one reconnect timer
  is armed. When one is armed, it is the remembered handle and there is no
  port. `Live` adds that a link without a handle always has a reconnect timer
  armed, so it keeps retrying. Every link is live from the constructor's own
  start on; only the record before that start lacks both. `RunPreservesValid`
  proves that `Valid`, and `Live` for a live link, hold after any history of
  events.
- `LogTail` (`log_tail.dfy`) models the per-machine log rule: concatenate the
  new chunk, then keep the subarray that starts at `max(0, length - limit)`.
  `LastN` is the reference definition it is proved against.
- `Servers` (`servers.dfy`) models `Server` and `ServersService`:
  - power-pin resolution and the status rule;
  - the LED, button and toggle reports;
  - the quiet button and toggle writes;
  - the list, detail and log lookups by machine id;
  - chunk delivery into the logs.

  A request that queries the hardware several times takes an oracle
  `hw: nat -> LineRead`. Query n of that request is answered by `hw(n)`.
  In the detail view, the status is query 0, followed by the LEDs, the buttons
  and the toggles.

  The running service is `Serve`, a fold of `Apply` over a history of
  requests. A request is a list request, a detail request, a button or toggle
  write, a chunk of console output, or a link event on one machine's link. A
  link event is a timer expiry, a library callback or a listener
  (`Unprompted`); a line read or write given as a link event changes nothing,
  because the service reads and writes lines only through its requests.
  `WellFormed` is the registry invariant: every power binding names an option
  and every link satisfies `Live`. It holds after start-up when every binding
  resolves, and `Serve` keeps it, so every request's precondition is met along
  any history. `Serve` also keeps every machine's id and configurations (`Setups`), and `ServedLogIsTail`
  shows that the log rule holds across such mixed histories.
- `Outcomes` (`outcomes.dfy`) holds `Option` and `Result`.

Three behaviours of the code a reader may not expect; the model follows the code:

- **Unknown machine id on a write.** `setServerButton` and `setServerToggle`
  return `null` when the machine id is unknown, and the HTTP layer answers
  success. So `SetServerControl` is a quiet no-op. It does not report
  not-found.
- **When the link counts as connected.** `isConnected` becomes true as soon as
  the open callback succeeds, because the library's open flag is set then. The
  clear of both output lines is answered later. Until that answer arrives, the
  shadow still holds whatever it held before the reconnect. `OpenCallback` and
  `ClearCallback` are therefore separate transitions.
- **A failed power read.** When a machine is connected but the live read of its
  power line fails, the list and the detail requests reject as a whole. The
  status does not fall back to unavailable. `StatusRows` and `Detail` return
  `Err(HardwareFailure)`, and the machine's link is restarted.

## Model

| member | source | states |
|---|---|---|
| TtyLink.IsConnected | backend/src/utils/tty-hardware-interface.ts:29-31 | Connected exactly when a handle exists and its open flag is set. A missing handle, or one still opening, is not connected. `Server.isConnected` (servers.service.ts:130-132) delegates to it |
| TtyLink.Fresh | backend/src/utils/tty-hardware-interface.ts:17-27 | A new link keeps its config and has no handle, no remembered timer, no armed timer, no pending clear, an all-low shadow and one free permit. It satisfies the invariant and is not connected |
| TtyLink.Restart | backend/src/utils/tty-hardware-interface.ts:33-50 | The handle is dropped and one new timer is armed. The remembered timer is no longer armed. On a valid link exactly one timer is armed afterwards. The shadow, the permit count and the config are unchanged |
| TtyLink.Start | backend/src/utils/tty-hardware-interface.ts:52-97 | With a handle present it changes nothing. Otherwise it creates an opening handle, or restarts if the constructor throws. It never changes whether the link is connected, nor the shadow, the permit or the link's configuration |
| TtyLink.OpenCallback | backend/src/utils/tty-hardware-interface.ts:60-79 | The link is connected afterwards exactly when the open reported no error. An error restarts the link. Success issues one baseline clear and leaves the shadow alone. The link's configuration is kept |
| TtyLink.ClearCallback | backend/src/utils/tty-hardware-interface.ts:79-91 | Whatever the answer, both shadow lines become low, and the handle, the timers and the link's configuration are untouched |
| TtyLink.GetPinState | backend/src/utils/tty-hardware-interface.ts:99-125 | Rejects with NotConnected exactly when disconnected. Output lines answer the shadow. CTS/DSR answer the hardware's value. A failed live read rejects with HardwareFailure and restarts. It never rejects with InvalidPin |
| TtyLink.SetPinState | backend/src/utils/tty-hardware-interface.ts:127-157 | Disconnected gives NotConnected and an input line gives InvalidPin, both with nothing changed. Success happens exactly on an acknowledged write to an output line. The written line then holds the value, the other keeps its shadow, and nothing else changes. A failed write restarts with the shadow kept. The permit count is the same on every path |
| TtyLink.StepPreservesValid | backend/src/utils/tty-hardware-interface.ts:33-157 | Every timer expiry, callback, listener, read and write keeps the invariant |
| TtyLink.StepPreservesLive | backend/src/utils/tty-hardware-interface.ts:33-157 | Every event keeps a live link live: each way of losing the handle arms a timer, and a firing timer either creates a handle or restarts |
| TtyLink.RunPreservesValid | backend/src/utils/tty-hardware-interface.ts:33-97 | After any history of events the invariant holds and at most one reconnect timer is armed. From a live link, the link stays live: whenever it has no handle, exactly the remembered timer is armed |
| TtyLink.RunKeepsConfig | backend/src/utils/tty-hardware-interface.ts:23 | After any history of events the link still has the configuration it was constructed with, as its readonly declaration promises |
| TtyLink.ConstructedLinkValid | backend/src/utils/tty-hardware-interface.ts:24-27 | The constructor's own start leaves a valid, live, not yet connected link |
| TtyLink.StartNeverDuplicates | backend/src/utils/tty-hardware-interface.ts:52-55 | Start is the identity whenever any handle exists |
| TtyLink.RestartTwiceKeepsOneTimer | backend/src/utils/tty-hardware-interface.ts:45-49 | Two restarts in a row leave exactly one armed timer, the second one; the first one is cancelled |
| TtyLink.ConnectEstablishesBaseline | backend/src/utils/tty-hardware-interface.ts:79-90 | A successful open followed by either answer to the clear leaves the link connected with DTR and RTS low |
| TtyLink.OutputReadIgnoresHardware | backend/src/utils/tty-hardware-interface.ts:103-108 | Reading DTR or RTS gives the same result whatever the hardware would answer |
| TtyLink.SetThenGetBothLines | backend/src/utils/tty-hardware-interface.ts:135-151 | Acknowledged writes of v1 to one output line and then v2 to the other are both read back |
| TtyLink.SetSameLineLastWins | backend/src/utils/tty-hardware-interface.ts:135-151 | Of two acknowledged writes to the same line, the later value is read back. The other line keeps its earlier shadow |
| TtyLink.FailedWriteRestarts | backend/src/utils/tty-hardware-interface.ts:143-156 | A rejected write keeps both shadow values and disconnects with exactly one timer armed. The permit is back at one |
| LogTail.Append | backend/src/servers/servers.service.ts:168-169 | The new log is the last min(limit, old+new length) bytes of old followed by data. It is empty for a non-positive limit |
| LogTail.ReplayExtends | backend/src/servers/servers.service.ts:162-170 | Replaying one more chunk is appending that chunk to the replayed log |
| LogTail.LastNChain | backend/src/servers/servers.service.ts:168-169 | Cutting after one chunk and then adding more gives the tail of everything together |
| LogTail.LastNAbsorbs | backend/src/servers/servers.service.ts:168-169 | Trimming to the window before appending a chunk gives the same tail as trimming after |
| LogTail.ReplayIsTailOfAll | backend/src/servers/servers.service.ts:162-170 | After any chunk sequence, empty chunks included, the log is the last limit bytes of the whole concatenation and never longer than the limit |
| LogTail.EmptyChunkKeepsLog | backend/src/servers/servers.service.ts:168-169 | An empty chunk leaves a log that already fits the window unchanged |
| LogTail.AppendWithinLimitKeepsAll | backend/src/servers/servers.service.ts:168-169 | While the total fits the limit nothing is dropped |
| Servers.Lookup | backend/src/servers/servers.service.ts:108-111 | An option is found exactly when some entry has the id. The result is that entry's option, and with distinct ids it is the only match |
| Servers.GetPowerPin | backend/src/servers/servers.service.ts:51-60 | The pin is the one configured under the binding's id within the binding's category, and it is unique when ids are distinct |
| Servers.GetPowerState | backend/src/servers/servers.service.ts:62-64 | Disconnected gives NotConnected. An output power line answers its shadow; a CTS or DSR power line answers the hardware's CTS or DSR value. While connected it rejects exactly on a failed live read of an input power line, with HardwareFailure and the machine's link restarted. A success leaves the machine unchanged |
| Servers.Status | backend/src/servers/servers.service.ts:181-182 | Unavailable exactly when disconnected. Otherwise Powered or NotPowered exactly as the power line reads true or false. It rejects exactly on a failed live read of an input power line; then the machine differs only by a restarted link |
| Servers.ReadOption | backend/src/servers/servers.service.ts:68-76 | The report carries the entry's id, icon and colour. The state is absent when disconnected, and otherwise it is the line's value. It rejects exactly on a failed live read of an input line; then the machine differs only by a restarted link |
| Servers.ReadOptions | backend/src/servers/servers.service.ts:66-106 | One report per entry in configuration order, each describing its entry. All states are absent when disconnected and equal to the line values when connected. A rejection implies some input-bound entry's read failed, and the machine then differs only by a restarted link |
| Servers.Detail | backend/src/servers/servers.service.ts:193-202 | The detail carries id, name and description. Its status follows the status rule and is Unavailable exactly when the link is disconnected. Every LED, button and toggle state is present exactly when the link is connected, and equals the line's value read at that option's query. It always succeeds when no hardware read fails. A rejection restarts the machine's link and changes nothing else |
| Servers.SetControl | backend/src/servers/servers.service.ts:108-128 | The button write `setButton` and the toggle write `setToggle` (modelled as `SetButton` and `SetToggle`, which call it with their category). An unknown option id or a disconnected link is a quiet no-op. An input-bound option gives InvalidPin. An acknowledged write sets the option's line, keeps the other output line, and changes nothing else of the machine or its link. A failed write restarts the machine's link and changes nothing else, so the shadow is kept. The link invariants and configuration are kept, and the link never becomes connected by a write |
| Servers.FindServer | backend/src/servers/servers.service.ts:189-189 | Returns the first position whose id matches, or nothing exactly when no machine has the id |
| Servers.Init | backend/src/servers/servers.service.ts:150-156 | One machine per configuration entry, in order, each with the link a fresh interface has after the constructor's start: an opening handle unless the constructor threw, an all-low shadow, no pending clear. Every link is live and not yet connected. No logs exist yet. When every power binding names an option, the registry invariant holds |
| Servers.OnData | backend/src/servers/servers.service.ts:160-171 | The receiving id's log becomes the tail window of old log plus chunk, bounded by the limit. Every other id's log and the machines are unchanged |
| Servers.StatusRows | backend/src/servers/servers.service.ts:174-186 | Builds the rows from the first unreported machine on: one row per machine in order with id, name, description and the status rule's answer for that machine's power line. The rows already built are kept. A rejection names the first machine not yet reported whose power read failed; only that machine changes, by a restart of its link |
| Servers.GetServerInfos | backend/src/servers/servers.service.ts:174-186 | On success nothing changes and row i carries machine i's status, Unavailable exactly when it is disconnected. It succeeds whenever no hardware read fails. A rejection comes from the first machine whose power read failed, and only that machine's link is restarted. Every machine keeps its id and configurations. The power-binding condition holds afterwards, and the permits and the registry invariant are kept |
| Servers.GetServerHardwareInfo | backend/src/servers/servers.service.ts:188-203 | Absent exactly for an unknown id, with nothing changed. Otherwise it is the detail of the first machine with that id, whose power binding is consulted only while it is connected. A rejection restarts only that machine's link. Every machine keeps its id and configurations, and the registry-wide conditions are kept |
| Servers.GetServerLog | backend/src/servers/servers.service.ts:205-211 | Absent exactly for an unknown id. Otherwise the stored log, or the empty log when nothing was received |
| Servers.SetServerControl | backend/src/servers/servers.service.ts:213-227 | The writes `setServerButton` and `setServerToggle` (modelled as `SetServerButton` and `SetServerToggle`, which call it with their category). An unknown machine id, an unknown option or a disconnected link changes nothing and succeeds. Otherwise only the addressed machine changes, as its own write dictates, and the logs, permits, ids and configurations are kept. The power-binding condition and the registry invariant are kept |
| Servers.WellFormedServesAll | backend/src/servers/servers.service.ts:174-227 | Under the registry invariant, the list, detail and write requests all have what they consult: resolvable power bindings and free write permits |
| Servers.OnLinkEvent | backend/src/utils/tty-hardware-interface.ts:33-97 | A timer, callback or listener on one machine's link steps that link and changes no other machine, no log, no id and no configuration, the link's own included. A line read or write given as a link event changes nothing. The registry invariant is kept |
| Servers.Apply | backend/src/servers/servers.service.ts:160-227 | Any single request keeps the registry invariant, the machine count and every machine's id, configuration and link configuration, which the source declares readonly. Only a chunk changes a log: the receiving id's log follows the log rule, every other log is kept, and no machine changes |
| Servers.Serve | backend/src/servers/servers.service.ts:40-227 | After any history of requests and link events the registry invariant still holds, and every machine keeps the id, configuration and link configuration it was built with, all declared readonly |
| Servers.ApplyLogStep | backend/src/servers/servers.service.ts:162-170 | One request moves an id's log by the log rule over exactly the bytes it delivers to that id, and the log stays within its window |
| Servers.ServedLogIsTail | backend/src/servers/servers.service.ts:160-227 | Across any mix of requests, link failures and reconnects, an id's log is the last limit bytes of its starting log followed by everything delivered to that id |
| Servers.StartupServedLogIsTail | backend/src/servers/servers.service.ts:150-211 | From start-up, under any history of requests, the log read for a configured machine is the last limit bytes of everything its id received |
| Servers.OpenThenClearConnects | backend/src/utils/tty-hardware-interface.ts:60-91 | In a running registry, a machine whose handle is opening is connected after a successful open and has both output lines low after the clear is answered. No other machine changes |
| Servers.StartupConnects | backend/src/servers/servers.service.ts:150-156 | From start-up, a machine whose handle was created connects and reaches the all-low baseline through its open and clear callbacks alone |
| Servers.ListAndDetailAgree | backend/src/servers/servers.service.ts:174-203 | Given the same power-line answer, whenever both the list and the detail succeed they report the same status for the machine |
| Servers.ReportsShowShadow | backend/src/servers/servers.service.ts:66-106 | While connected, a report for an option bound to an output line shows that line's shadow |
| Servers.DetailShowsToggleShadow | backend/src/servers/servers.service.ts:94-106 | With every query answered, the detail succeeds and each output-bound toggle shows its shadow value |
| Servers.ToggleWriteVisibleInDetail | backend/src/servers/servers.service.ts:119-128 | After an acknowledged toggle write on a connected machine, the next detail shows that toggle at the written value |
| Servers.SetToggleThenDetailShowsIt | backend/src/servers/servers.service.ts:221-227 | The same holds when both requests are addressed by machine id |

## Left out

- Serial-port I/O, the `Logger`, and the 1000 ms reconnect delay are not modelled. A timer is only an identity that is armed, cancelled or fired.
- Node callback ordering is not modelled. Each library callback is one transition, delivered in any order its `Enabled` condition allows.
- `write()` (tty-hardware-interface.ts:159-181) is not modelled. Nothing in the core calls it.
- The `error` and `close` listeners are one `Fault` event that restarts the link. Listeners left on a destroyed handle are not told apart from live ones.
- TtyLink.SetPinState: pin writes are not concurrent in the model. Each critical section is one atomic step, and the call needs a free permit only on the path that reaches the semaphore. Waiting for a held permit is not modelled.
- TtyLink.GetPinState: the live CTS/DSR value is an input to the model. The `reject` after `resolve` at line 122 has no effect and is not modelled.
- Configuration loading is not modelled: reading and parsing the JSON file, and reading `SERVERS_CONFIG_PATH` and `LOG_LENGTH_LIMIT`. The parsed entries and the limit are inputs. A limit that `parseInt` turns into NaN is not modelled.
- Servers.GetPowerPin: the binding must name an existing option. The code would throw a TypeError instead. The condition is required only for the machines a request consults, and only while they are connected: every machine for the list, the found machine for the detail. The running service assumes every binding resolves.
- Servers.Lookup: configuration records are sequences of distinct-id entries in enumeration order. Inherited JavaScript property names such as `constructor` are not looked up.
- Servers.Detail: the detail request is one atomic step. In the code each line read is awaited, so a close or error listener, a reconnect or a concurrent toggle write can land between the status read and the option reads. The code can then report Powered or NotPowered alongside absent option states, or a toggle state written after the status was read. The model does not show these interleavings.
- Servers.GetServerInfos: the list request is one atomic step. In the code the machines' power reads are awaited one after another, and link events can land between them.
- Servers.OnData: the log store is a plain JavaScript object. A machine id that names an inherited property, such as `constructor` or `toString`, finds a non-buffer value there. The chunk handler then throws, and `getServerLog` returns that inherited value. The model gives such ids the tail or the empty log like any other id. `GetServerLog` follows the same rule.
- Servers.SetServerControl: a write needs a free permit on the addressed machine when it is connected. Waiting for a held permit is not modelled.
- The `onData` wiring between link, server and service (servers.service.ts:38, 48, 162) is not modelled. It becomes `OnData` applied to the machine's position.
- The HTTP controller, Swagger metadata, hex encoding of the log, the Nest module wiring and the whole browser front end are not modelled. They are presentation and transport.

=== FILE: log_tail.dfy ===
/**
 * The bounded per-machine console log: every chunk received on a link is
 * appended and the result is cut back to the newest `limit` bytes.
 */
module LogTail {

  type byte = bv8

  /** The smaller of two integers. */
  function Min(a: int, b: int): int {
    if a <= b then a else b
  }

  /** How many bytes a tail window of size `limit` keeps; none for a non-positive limit. */
  function Window(limit: int): nat {
    if limit <= 0 then 0 else limit
  }

  /** The last `n` bytes of `s`, or all of `s` when it is shorter: the reference definition. */
  function LastN(s: seq<byte>, n: nat): seq<byte>
  {
    s[|s| - Min(n, |s|)..]
  }

  /**
   * One chunk arriving: concatenate, then keep the subarray starting at
   * `max(0, length - limit)`, which the buffer clamps to its length.
   */
  function Append(log: seq<byte>, data: seq<byte>, limit: int): (r: seq<byte>)
    ensures |r| == Min(Window(limit), |log| + |data|)
    ensures r == LastN(log + data, Window(limit))
  {
    var all := log + data;
    var start := if |all| - limit < 0 then 0 else |all| - limit;
    if start > |all| then [] else all[start..]
  }

  /** All chunks joined in arrival order. */
  function Flatten(chunks: seq<seq<byte>>): seq<byte>
    decreases |chunks|
  {
    if |chunks| == 0 then [] else Flatten(chunks[..|chunks| - 1]) + chunks[|chunks| - 1]
  }

  /** The log after the given chunks arrived, starting from an empty buffer. */
  function Replay(chunks: seq<seq<byte>>, limit: int): seq<byte>
    decreases |chunks|
  {
    if |chunks| == 0 then []
    else Append(Replay(chunks[..|chunks| - 1], limit), chunks[|chunks| - 1], limit)
  }

  /** Replaying a history extended by one chunk appends that chunk to the replayed log. */
  lemma ReplayExtends(limit: int)
    ensures forall cs: seq<seq<byte>>, c: seq<byte> {:trigger Replay(cs + [c], limit)} ::
              Replay(cs + [c], limit) == Append(Replay(cs, limit), c, limit)
  {
    forall cs: seq<seq<byte>>, c: seq<byte>
      ensures Replay(cs + [c], limit) == Append(Replay(cs, limit), c, limit)
    {
      assert (cs + [c])[..|cs|] == cs;
    }
  }

  /** Cutting to the window before or after appending a chunk gives the same tail. */
  lemma LastNAbsorbs(x: seq<byte>, d: seq<byte>, n: nat)
    ensures LastN(LastN(x, n) + d, n) == LastN(x + d, n)
  {
    var k := Min(n, |x|);
    var s := LastN(x, n);
    assert s + d == (x + d)[|x| - k..];
    var m := Min(n, |s + d|);
    assert m == Min(n, |x + d|);
    assert (s + d)[|s + d| - m..] == (x + d)[|x| - k + |s + d| - m..];
  }

  /** A log cut to the window after `d` and then extended by `e` has the tail of `x`, `d` and `e` together. */
  lemma LastNChain(x: seq<byte>, d: seq<byte>, e: seq<byte>, n: nat)
    ensures LastN(LastN(x + d, n) + e, n) == LastN(x + (d + e), n)
  {
    LastNAbsorbs(x + d, e, n);
    assert x + d + e == x + (d + e);
  }

  /**
   * After any sequence of chunks, empty ones included, the log holds exactly the
   * last `limit` bytes of everything received.
   */
  lemma {:induction false} ReplayIsTailOfAll(chunks: seq<seq<byte>>, limit: int)
    ensures Replay(chunks, limit) == LastN(Flatten(chunks), Window(limit))
    ensures |Replay(chunks, limit)| <= Window(limit)
    decreases |chunks|
  {
    if |chunks| > 0 {
      var init := chunks[..|chunks| - 1];
      var last := chunks[|chunks| - 1];
      ReplayIsTailOfAll(init, limit);
      LastNAbsorbs(Flatten(init), last, Window(limit));
    }
  }

  /** An empty chunk leaves a log that already fits its window untouched. */
  lemma EmptyChunkKeepsLog(log: seq<byte>, limit: int)
    requires |log| <= Window(limit)
    ensures Append(log, [], limit) == log
  {
    assert log + [] == log;
  }

  /** While the total stays within the window, nothing is dropped. */
  lemma AppendWithinLimitKeepsAll(log: seq<byte>, data: seq<byte>, limit: int)
    requires |log| + |data| <= limit
    ensures Append(log, data, limit) == log + data
  {
  }
}

=== FILE: outcomes.dfy ===
/** Failure-carrying values shared by the link and the registry. */
module Outcomes {

  /** A value that may be absent: a missing record entry, `undefined` or `null`. */
  datatype Option<+T> = None | Some(value: T)

  /** The outcome of an operation that either resolves with a value or rejects. */
  datatype Result<+T, +E> = Ok(value: T) | Err(error: E)
}

=== FILE: servers.dfy ===
/**
 * The machine registry: each configured machine owns one serial link and a
 * static map of named LEDs, buttons and toggles bound to handshake lines. The
 * registry derives power status, reports option states, forwards button and
 * toggle writes to the link, and keeps each machine's console log tail.
 *
 * Hardware answers enter as parameters. A request that queries the hardware
 * several times takes an oracle `hw`: the n-th line query of that request
 * (counting every query, whether or not the line is live) is answered by hw(n).
 */
module Servers {
  import opened Outcomes
  import opened TtyLink
  import LogTail

  type byte = LogTail.byte

  /** The overall state the dashboard shows for a machine. */
  datatype ServerStatus = Unavailable | Powered | NotPowered

  /** The picture drawn for an option. */
  datatype HardwareIcon = PowerIcon | ResetIcon

  /** A configured option: how it is drawn and which line it is bound to. */
  datatype OptionConfig = OptionConfig(color: string, icon: HardwareIcon, pin: Pin)

  /** One key of a configuration record, in the record's enumeration order. */
  datatype OptionEntry = OptionEntry(id: string, option: OptionConfig)

  /** The three option categories of a machine. */
  datatype Category = Toggles | Leds | Buttons

  /** Which option decides whether the machine counts as powered. */
  datatype PowerStatusBinding = PowerStatusBinding(kind: Category, id: string)

  /** The parsed configuration of one machine. */
  datatype ServerConfig = ServerConfig(
    name: string,
    description: string,
    tty: TtyConfig,
    leds: seq<OptionEntry>,
    buttons: seq<OptionEntry>,
    toggles: seq<OptionEntry>,
    powerStatus: PowerStatusBinding)

  /** One machine: its configuration key, configuration and link. */
  datatype Server = Server(id: string, config: ServerConfig, tty: Link)

  /** An option as reported to the dashboard; `state` is absent while offline. */
  datatype OptionInfo = OptionInfo(id: string, icon: HardwareIcon, color: string, state: Option<bool>)

  /** A row of the machine list. */
  datatype ServerInfo = ServerInfo(id: string, name: string, description: string, status: ServerStatus)

  /** The detail view of one machine. */
  datatype HardwareInfo = HardwareInfo(
    id: string,
    name: string,
    description: string,
    status: ServerStatus,
    leds: seq<OptionInfo>,
    buttons: seq<OptionInfo>,
    toggles: seq<OptionInfo>)

  /** The answers the hardware gives to the line queries of one request. */
  type Oracle = nat -> LineRead

  /** Every machine in configuration order, the log tail of each machine id, and the log limit. */
  datatype Registry = Registry(servers: seq<Server>, logs: map<string, seq<byte>>, logLengthLimit: int)

  /** A parsed configuration record entry: machine id and its configuration. */
  datatype ConfigEntry = ConfigEntry(id: string, config: ServerConfig)

  /** What a machine is built with and never changes: its id, its configuration and its link's. */
  datatype Setup = Setup(id: string, config: ServerConfig, link: TtyConfig)

  // ---------------------------------------------------------------------------
  // Configuration lookups
  // ---------------------------------------------------------------------------

  /** The entries of one category. */
  function Entries(c: ServerConfig, kind: Category): seq<OptionEntry> {
    match kind
    case Toggles => c.toggles
    case Leds => c.leds
    case Buttons => c.buttons
  }

  /** No id occurs twice in a category, as in any record. */
  predicate DistinctIds(entries: seq<OptionEntry>) {
    forall i, j :: 0 <= i < j < |entries| ==> entries[i].id != entries[j].id
  }

  /** The option stored under `id`, if any. */
  function Lookup(entries: seq<OptionEntry>, id: string): (r: Option<OptionConfig>)
    ensures r.Some? <==> exists i :: 0 <= i < |entries| && entries[i].id == id
    ensures r.Some? ==> exists i :: 0 <= i < |entries| && entries[i] == OptionEntry(id, r.value)
    ensures r.Some? && DistinctIds(entries) ==>
              forall i :: 0 <= i < |entries| && entries[i].id == id ==> entries[i].option == r.value
    decreases |entries|
  {
    if |entries| == 0 then None
    else if entries[0].id == id then Some(entries[0].option)
    else
      var rest := Lookup(entries[1..], id);
      assert forall i :: 1 <= i < |entries| ==> entries[i] == entries[1..][i - 1];
      rest
  }

  /** The power-status binding names an option that exists. */
  predicate PowerResolves(c: ServerConfig) {
    Lookup(Entries(c, c.powerStatus.kind), c.powerStatus.id).Some?
  }

  /** The line that decides the power status. */
  function GetPowerPin(c: ServerConfig): (p: Pin)
    requires PowerResolves(c)
    ensures var entries := Entries(c, c.powerStatus.kind);
      exists i :: 0 <= i < |entries| && entries[i].id == c.powerStatus.id && entries[i].option.pin == p
    ensures var entries := Entries(c, c.powerStatus.kind);
      DistinctIds(entries) ==>
        forall i :: 0 <= i < |entries| && entries[i].id == c.powerStatus.id ==> entries[i].option.pin == p
  {
    Lookup(Entries(c, c.powerStatus.kind), c.powerStatus.id).value.pin
  }

  // ---------------------------------------------------------------------------
  // One machine
  // ---------------------------------------------------------------------------

  /** The machine after its link restarted; nothing else about it changes. */
  function Restarted(s: Server): Server {
    s.(tty := Restart(s.tty))
  }

  /** Reads the power line; a failed live read restarts the link. */
  function GetPowerState(s: Server, hw: LineRead): (r: (Server, Result<bool, PinError>))
    requires PowerResolves(s.config)
    ensures r.0.id == s.id && r.0.config == s.config
    ensures r.1.Ok? ==> r.0 == s
    ensures !IsConnected(s.tty) ==> r == (s, Err(NotConnected))
    ensures IsConnected(s.tty) && GetPowerPin(s.config).IsOutput() ==>
              r.1 == Ok(Shadow(s.tty, GetPowerPin(s.config)))
    ensures IsConnected(s.tty) && GetPowerPin(s.config) == Cts && hw.Lines? ==> r.1 == Ok(hw.cts)
    ensures IsConnected(s.tty) && GetPowerPin(s.config) == Dsr && hw.Lines? ==> r.1 == Ok(hw.dsr)
    ensures IsConnected(s.tty) && r.1.Err? <==> IsConnected(s.tty) && !GetPowerPin(s.config).IsOutput() && hw.ReadFailed?
    ensures IsConnected(s.tty) && r.1.Err? ==> r.1.error == HardwareFailure && r.0 == Restarted(s)
  {
    var (l, v) := GetPinState(s.tty, GetPowerPin(s.config), hw);
    (s.(tty := l), v)
  }

  /**
   * The status rule shared by the list and the detail view: unavailable
   * without a connection, otherwise powered exactly when the power line reads
   * high. The power binding is only consulted while connected.
   */
  function Status(s: Server, hw: LineRead): (r: (Server, Result<ServerStatus, PinError>))
    requires IsConnected(s.tty) ==> PowerResolves(s.config)
    ensures r.0.id == s.id && r.0.config == s.config
    ensures r.1 == Ok(Unavailable) <==> !IsConnected(s.tty)
    ensures r.1.Ok? ==> r.0 == s
    ensures IsConnected(s.tty) ==>
              (r.1 == Ok(Powered) <==> GetPowerState(s, hw).1 == Ok(true))
    ensures IsConnected(s.tty) ==>
              (r.1 == Ok(NotPowered) <==> GetPowerState(s, hw).1 == Ok(false))
    ensures r.1.Err? <==>
              IsConnected(s.tty) && !GetPowerPin(s.config).IsOutput() && hw.ReadFailed?
    ensures r.1.Err? ==> r.1.error == HardwareFailure && r.0 == Restarted(s)
  {
    if !IsConnected(s.tty) then (s, Ok(Unavailable))
    else
      var (s1, power) := GetPowerState(s, hw);
      match power
      case Ok(on) => (s1, Ok(if on then Powered else NotPowered))
      case Err(e) => (s1, Err(e))
  }

  /** The report carries the entry's id, icon and colour. */
  predicate Describes(info: OptionInfo, e: OptionEntry) {
    info.id == e.id && info.icon == e.option.icon && info.color == e.option.color
  }

  /** The report of one option: its line value while connected, absent otherwise. */
  function ReadOption(s: Server, e: OptionEntry, hw: LineRead): (r: (Server, Result<OptionInfo, PinError>))
    ensures r.0.id == s.id && r.0.config == s.config
    ensures r.1.Ok? ==> r.0 == s && Describes(r.1.value, e)
    ensures !IsConnected(s.tty) ==> r.1.Ok? && r.1.value.state.None?
    ensures IsConnected(s.tty) && r.1.Ok? ==>
              r.1.value.state.Some? && GetPinState(s.tty, e.option.pin, hw).1 == Ok(r.1.value.state.value)
    ensures r.1.Err? <==> IsConnected(s.tty) && !e.option.pin.IsOutput() && hw.ReadFailed?
    ensures r.1.Err? ==> r.1.error == HardwareFailure && r.0 == Restarted(s)
  {
    if !IsConnected(s.tty) then (s, Ok(OptionInfo(e.id, e.option.icon, e.option.color, None)))
    else
      var (l, v) := GetPinState(s.tty, e.option.pin, hw);
      match v
      case Ok(b) => (s, Ok(OptionInfo(e.id, e.option.icon, e.option.color, Some(b))))
      case Err(err) => (s.(tty := l), Err(err))
  }

  /**
   * The reports of a category, in configuration order, continuing after the
   * reports already built: entry i is answered by hw(k + i). The first failed
   * live read rejects the whole list.
   */
  function ReadOptions(s: Server, entries: seq<OptionEntry>, hw: Oracle, k: nat, reported: seq<OptionInfo>)
    : (r: (Server, Result<seq<OptionInfo>, PinError>))
    requires |reported| <= |entries|
    ensures r.0.id == s.id && r.0.config == s.config
    ensures r.1.Ok? ==> r.0 == s && |r.1.value| == |entries| && r.1.value[..|reported|] == reported
    ensures r.1.Ok? ==> forall i :: |reported| <= i < |entries| ==> Describes(r.1.value[i], entries[i])
    ensures !IsConnected(s.tty) ==>
              r.1.Ok? && forall i :: |reported| <= i < |entries| ==> r.1.value[i].state.None?
    ensures IsConnected(s.tty) && r.1.Ok? ==>
              forall i :: |reported| <= i < |entries| ==>
                && r.1.value[i].state.Some?
                && GetPinState(s.tty, entries[i].option.pin, hw(k + i)).1 == Ok(r.1.value[i].state.value)
    ensures r.1.Err? ==> r.1.error == HardwareFailure && r.0 == Restarted(s)
    ensures r.1.Err? ==>
              exists i :: |reported| <= i < |entries| && !entries[i].option.pin.IsOutput() && hw(k + i).ReadFailed?
    decreases |entries| - |reported|
  {
    if |reported| == |entries| then
      assert reported[..|reported|] == reported;
      (s, Ok(reported))
    else
      var j := |reported|;
      var (s1, first) := ReadOption(s, entries[j], hw(k + j));
      match first
      case Err(err) => (s1, Err(err))
      case Ok(info) =>
        var next := reported + [info];
        var res := ReadOptions(s, entries, hw, k, next);
        assert res.1.Ok? ==> res.1.value[..|reported|] == next[..|reported|] && res.1.value[j] == next[j];
        assert next[..|reported|] == reported;
        res
  }

  /** Every option state is reported exactly when the link is connected. */
  predicate StatesMatch(infos: seq<OptionInfo>, connected: bool) {
    forall i :: 0 <= i < |infos| ==> infos[i].state.Some? == connected
  }

  /**
   * The detail view of one machine: the status answered by hw(0), then the
   * LEDs, buttons and toggles answered by the following queries.
   */
  function Detail(s: Server, hw: Oracle): (r: (Server, Result<HardwareInfo, PinError>))
    requires IsConnected(s.tty) ==> PowerResolves(s.config)
    ensures r.0.id == s.id && r.0.config == s.config
    ensures r.1.Ok? ==> r.0 == s
    ensures r.1.Ok? ==>
              && r.1.value.id == s.id
              && r.1.value.name == s.config.name
              && r.1.value.description == s.config.description
              && Status(s, hw(0)).1 == Ok(r.1.value.status)
    ensures r.1.Ok? ==> (r.1.value.status == Unavailable <==> !IsConnected(s.tty))
    ensures r.1.Ok? ==>
              && StatesMatch(r.1.value.leds, IsConnected(s.tty))
              && StatesMatch(r.1.value.buttons, IsConnected(s.tty))
              && StatesMatch(r.1.value.toggles, IsConnected(s.tty))
    ensures r.1.Ok? ==>
              && ReadOptions(s, s.config.leds, hw, 1, []).1 == Ok(r.1.value.leds)
              && ReadOptions(s, s.config.buttons, hw, 1 + |s.config.leds|, []).1 == Ok(r.1.value.buttons)
              && ReadOptions(s, s.config.toggles, hw, 1 + |s.config.leds| + |s.config.buttons|, []).1
                   == Ok(r.1.value.toggles)
    ensures (forall n :: hw(n).Lines?) ==> r.1.Ok?
    ensures r.1.Err? ==> r.1.error == HardwareFailure && r.0 == Restarted(s)
  {
    // A status, LED or button read that succeeds leaves the machine unchanged,
    // so every later stage starts from `s` again.
    var (s0, status) := Status(s, hw(0));
    match status
    case Err(e) => (s0, Err(e))
    case Ok(st) =>
      var (s1, leds) := ReadOptions(s, s.config.leds, hw, 1, []);
      match leds
      case Err(e) => (s1, Err(e))
      case Ok(ledInfos) =>
        var (s2, buttons) := ReadOptions(s, s.config.buttons, hw, 1 + |s.config.leds|, []);
        match buttons
        case Err(e) => (s2, Err(e))
        case Ok(buttonInfos) =>
          var (s3, toggles) := ReadOptions(s, s.config.toggles, hw, 1 + |s.config.leds| + |s.config.buttons|, []);
          match toggles
          case Err(e) => (s3, Err(e))
          case Ok(toggleInfos) =>
            (s, Ok(HardwareInfo(s.id, s.config.name, s.config.description, st,
                                 ledInfos, buttonInfos, toggleInfos)))
  }

  /**
   * A button or toggle write: an unknown option id or a missing connection
   * returns quietly without touching the line; otherwise the option's line is
   * set through the link.
   */
  function SetControl(s: Server, kind: Category, optionId: string, state: bool, hw: WriteAnswer)
    : (r: (Server, Result<(), PinError>))
    requires kind != Leds
    requires IsConnected(s.tty) ==> s.tty.setLock > 0
    ensures r.0.id == s.id && r.0.config == s.config && r.0.tty.config == s.tty.config
    ensures r.0.tty.setLock == s.tty.setLock
    ensures Lookup(Entries(s.config, kind), optionId).None? ==> r == (s, Ok(()))
    ensures !IsConnected(s.tty) ==> r == (s, Ok(()))
    ensures r.1 == Err(InvalidPin) <==>
              && IsConnected(s.tty)
              && Lookup(Entries(s.config, kind), optionId).Some?
              && !Lookup(Entries(s.config, kind), optionId).value.pin.IsOutput()
    ensures r.1 == Err(InvalidPin) ==> r.0 == s
    ensures r.1 == Err(HardwareFailure) ==>
              !IsConnected(r.0.tty) && r.0.tty.dtr == s.tty.dtr && r.0.tty.rts == s.tty.rts
    ensures r.1 == Err(HardwareFailure) ==> r.0 == Restarted(s)
    ensures r.1 == Err(HardwareFailure) <==>
              && IsConnected(s.tty)
              && Lookup(Entries(s.config, kind), optionId).Some?
              && Lookup(Entries(s.config, kind), optionId).value.pin.IsOutput()
              && hw == WriteFailed
    ensures var option := Lookup(Entries(s.config, kind), optionId);
      IsConnected(s.tty) && option.Some? && option.value.pin.IsOutput() && hw == WriteOk ==>
        && r.1.Ok?
        && Shadow(r.0.tty, option.value.pin) == state
        && Shadow(r.0.tty, option.value.pin.Other()) == Shadow(s.tty, option.value.pin.Other())
        && r.0.tty.port == s.tty.port
    ensures r.1.Ok? ==> r.0 == s.(tty := s.tty.(dtr := r.0.tty.dtr, rts := r.0.tty.rts))
    ensures Valid(s.tty) ==> Valid(r.0.tty)
    ensures Live(s.tty) ==> Live(r.0.tty)
    ensures IsConnected(r.0.tty) ==> IsConnected(s.tty)
  {
    match Lookup(Entries(s.config, kind), optionId)
    case None => (s, Ok(()))
    case Some(option) =>
      if !IsConnected(s.tty) then (s, Ok(()))
      else
        var (l, res) := SetPinState(s.tty, option.pin, state, hw);
        (s.(tty := l), res)
  }

  /** A button write. */
  function SetButton(s: Server, buttonId: string, state: bool, hw: WriteAnswer): (Server, Result<(), PinError>)
    requires IsConnected(s.tty) ==> s.tty.setLock > 0
  {
    SetControl(s, Buttons, buttonId, state, hw)
  }

  /** A toggle write. */
  function SetToggle(s: Server, toggleId: string, state: bool, hw: WriteAnswer): (Server, Result<(), PinError>)
    requires IsConnected(s.tty) ==> s.tty.setLock > 0
  {
    SetControl(s, Toggles, toggleId, state, hw)
  }

  // ---------------------------------------------------------------------------
  // The registry
  // ---------------------------------------------------------------------------

  /** The position of the first machine with the given id, if any. */
  function FindServer(servers: seq<Server>, id: string): (r: Option<nat>)
    ensures r.Some? ==> r.value < |servers| && servers[r.value].id == id
    ensures r.Some? ==> forall j :: 0 <= j < r.value ==> servers[j].id != id
    ensures r.None? <==> forall j :: 0 <= j < |servers| ==> servers[j].id != id
    decreases |servers|
  {
    if |servers| == 0 then None
    else if servers[0].id == id then Some(0)
    else
      assert forall j :: 1 <= j < |servers| ==> servers[j] == servers[1..][j - 1];
      match FindServer(servers[1..], id)
      case None => None
      case Some(j) => Some(j + 1)
  }

  /** The machine ids in configuration order. */
  function Ids(servers: seq<Server>): (ids: seq<string>)
    ensures |ids| == |servers| && forall j :: 0 <= j < |servers| ==> ids[j] == servers[j].id
  {
    seq(|servers|, j requires 0 <= j < |servers| => servers[j].id)
  }

  /** Two machine lists with the same id at every position have the same ids. */
  lemma SameIds(a: seq<Server>, b: seq<Server>)
    requires |a| == |b| && forall j :: 0 <= j < |a| ==> a[j].id == b[j].id
    ensures Ids(a) == Ids(b)
  {
  }

  /** The readonly part of every machine, in order. */
  function Setups(servers: seq<Server>): (setups: seq<Setup>)
    ensures |setups| == |servers|
    ensures forall j :: 0 <= j < |servers| ==>
              setups[j] == Setup(servers[j].id, servers[j].config, servers[j].tty.config)
  {
    seq(|servers|, j requires 0 <= j < |servers| =>
      Setup(servers[j].id, servers[j].config, servers[j].tty.config))
  }

  /** Two machine lists that agree on every machine's readonly part have the same setups and ids. */
  lemma SameSetups(a: seq<Server>, b: seq<Server>)
    requires |a| == |b|
    requires forall j :: 0 <= j < |a| ==>
               a[j].id == b[j].id && a[j].config == b[j].config && a[j].tty.config == b[j].tty.config
    ensures Setups(a) == Setups(b) && Ids(a) == Ids(b)
  {
    SameIds(a, b);
  }

  /** Every connected machine's power binding names an existing option. */
  predicate PowerBound(reg: Registry) {
    forall i :: 0 <= i < |reg.servers| ==>
      (IsConnected(reg.servers[i].tty) ==> PowerResolves(reg.servers[i].config))
  }

  /** No machine's write semaphore is held between operations. */
  predicate LocksFree(reg: Registry) {
    forall i :: 0 <= i < |reg.servers| ==> reg.servers[i].tty.setLock > 0
  }

  /**
   * What the detail view consults: the machine found under `id`, when it is
   * connected, has a power binding that names an option.
   */
  predicate DetailReady(reg: Registry, id: string) {
    match FindServer(reg.servers, id)
    case None => true
    case Some(i) => IsConnected(reg.servers[i].tty) ==> PowerResolves(reg.servers[i].config)
  }

  /**
   * What a write consults: the machine found under `id`, when it is
   * connected, has a free write permit.
   */
  predicate WriteReady(reg: Registry, id: string) {
    match FindServer(reg.servers, id)
    case None => true
    case Some(i) => IsConnected(reg.servers[i].tty) ==> reg.servers[i].tty.setLock > 0
  }

  /**
   * The registry invariant: every machine's power binding names an option and
   * every link is live, so its write permit is free and a link without a
   * handle has a reconnect timer armed.
   */
  predicate WellFormed(reg: Registry) {
    forall i :: 0 <= i < |reg.servers| ==> PowerResolves(reg.servers[i].config) && Live(reg.servers[i].tty)
  }

  /**
   * Replacing one machine by one with the same configuration and permit count,
   * whose link is connected only if the old one was and stays live if the old
   * one was, keeps every registry-wide condition.
   */
  lemma ReplaceKeepsRegistry(reg: Registry, i: nat, s: Server)
    requires i < |reg.servers|
    requires s.id == reg.servers[i].id && s.config == reg.servers[i].config
    requires s.tty.config == reg.servers[i].tty.config && s.tty.setLock == reg.servers[i].tty.setLock
    requires IsConnected(s.tty) ==> IsConnected(reg.servers[i].tty)
    requires Live(reg.servers[i].tty) ==> Live(s.tty)
    ensures var r := reg.(servers := reg.servers[i := s]);
      && Setups(r.servers) == Setups(reg.servers)
      && Ids(r.servers) == Ids(reg.servers)
      && (PowerBound(reg) ==> PowerBound(r))
      && (LocksFree(reg) ==> LocksFree(r))
      && (WellFormed(reg) ==> WellFormed(r))
  {
    SameSetups(reg.servers[i := s], reg.servers);
  }

  /** A well-formed registry meets the precondition of every request. */
  lemma WellFormedServesAll(reg: Registry, id: string)
    requires WellFormed(reg)
    ensures PowerBound(reg) && LocksFree(reg) && DetailReady(reg, id) && WriteReady(reg, id)
  {
  }

  /** The log of a machine id; an id that never received data has the empty log. */
  function LogOf(reg: Registry, id: string): seq<byte> {
    if id in reg.logs then reg.logs[id] else []
  }

  /**
   * Module start-up over the parsed configuration: one machine per entry, in
   * order, each with a fresh link on which start has been called once, and no
   * logs yet.
   */
  function Init(configs: seq<ConfigEntry>, limit: int, ctorThrows: nat -> bool): (reg: Registry)
    ensures |reg.servers| == |configs| && reg.logs == map[] && reg.logLengthLimit == limit
    ensures forall i :: 0 <= i < |configs| ==>
              && reg.servers[i].id == configs[i].id
              && reg.servers[i].config == configs[i].config
              && reg.servers[i].tty.config == configs[i].config.tty
              && reg.servers[i].tty == Start(Fresh(configs[i].config.tty), ctorThrows(i))
              && Live(reg.servers[i].tty)
              && !IsConnected(reg.servers[i].tty)
    ensures PowerBound(reg) && LocksFree(reg)
    ensures (forall i :: 0 <= i < |configs| ==> PowerResolves(configs[i].config)) ==> WellFormed(reg)
  {
    var servers := seq(|configs|, i requires 0 <= i < |configs| =>
      Server(configs[i].id, configs[i].config, Start(Fresh(configs[i].config.tty), ctorThrows(i))));
    assert forall i :: 0 <= i < |configs| ==>
      servers[i].tty == Start(Fresh(configs[i].config.tty), ctorThrows(i)) && servers[i].tty.setLock == 1;
    Registry(servers, map[], limit)
  }

  /**
   * A chunk arrives on the link of the machine at position `i`: the log of its
   * id becomes the tail window of the old log followed by the chunk. Nothing
   * else changes.
   */
  function OnData(reg: Registry, i: nat, data: seq<byte>): (r: Registry)
    requires i < |reg.servers|
    ensures r.servers == reg.servers && r.logLengthLimit == reg.logLengthLimit
    ensures LogOf(r, reg.servers[i].id) ==
              LogTail.LastN(LogOf(reg, reg.servers[i].id) + data, LogTail.Window(reg.logLengthLimit))
    ensures |LogOf(r, reg.servers[i].id)| <= LogTail.Window(reg.logLengthLimit)
    ensures forall id :: id != reg.servers[i].id ==> LogOf(r, id) == LogOf(reg, id)
    ensures forall id :: id != reg.servers[i].id ==> (id in r.logs <==> id in reg.logs)
  {
    var id := reg.servers[i].id;
    reg.(logs := reg.logs[id := LogTail.Append(LogOf(reg, id), data, reg.logLengthLimit)])
  }

  /** The list row of a machine with the given status. */
  function Row(s: Server, st: ServerStatus): ServerInfo {
    ServerInfo(s.id, s.config.name, s.config.description, st)
  }

  /**
   * Machine `i` is the first from position `from` on whose status read
   * rejects.
   */
  predicate FirstFailure(servers: seq<Server>, hw: Oracle, from: nat, i: nat)
    requires i < |servers|
    requires forall j :: 0 <= j < |servers| ==>
               (IsConnected(servers[j].tty) ==> PowerResolves(servers[j].config))
  {
    && Status(servers[i], hw(i)).1.Err?
    && forall j :: from <= j < i ==> Status(servers[j], hw(j)).1.Ok?
  }

  /** A machine whose status read succeeds does not move the first failure after it. */
  lemma FirstFailureFrom(servers: seq<Server>, hw: Oracle, j: nat)
    requires j < |servers|
    requires forall i :: 0 <= i < |servers| ==>
               (IsConnected(servers[i].tty) ==> PowerResolves(servers[i].config))
    requires Status(servers[j], hw(j)).1.Ok?
    ensures forall i :: j < i < |servers| && FirstFailure(servers, hw, j + 1, i) ==> FirstFailure(servers, hw, j, i)
  {
  }

  /**
   * The machine list, continuing after the rows already built: machine i's
   * status is answered by hw(i). The first failed power read rejects the whole
   * list; only the failing machine changes, by restarting its link.
   */
  function StatusRows(servers: seq<Server>, hw: Oracle, rows: seq<ServerInfo>)
    : (r: (seq<Server>, Result<seq<ServerInfo>, PinError>))
    requires |rows| <= |servers|
    requires forall i :: 0 <= i < |servers| ==>
               (IsConnected(servers[i].tty) ==> PowerResolves(servers[i].config))
    ensures |r.0| == |servers|
    ensures forall i :: 0 <= i < |servers| ==>
              r.0[i].id == servers[i].id && r.0[i].config == servers[i].config && r.0[i].tty.config == servers[i].tty.config
    ensures r.1.Ok? ==> r.0 == servers && |r.1.value| == |servers| && r.1.value[..|rows|] == rows
    ensures r.1.Ok? ==> forall i :: |rows| <= i < |servers| ==>
              && r.1.value[i] == Row(servers[i], r.1.value[i].status)
              && Status(servers[i], hw(i)).1 == Ok(r.1.value[i].status)
    ensures r.1.Err? ==> r.1.error == HardwareFailure
    ensures r.1.Err? ==>
              exists i :: |rows| <= i < |servers| && FirstFailure(servers, hw, |rows|, i) &&
                r.0 == servers[i := Restarted(servers[i])]
    decreases |servers| - |rows|
  {
    if |rows| == |servers| then
      assert rows[..|rows|] == rows;
      (servers, Ok(rows))
    else
      var j := |rows|;
      var (s0, status) := Status(servers[j], hw(j));
      match status
      case Err(e) =>
        assert FirstFailure(servers, hw, j, j);
        (servers[j := s0], Err(e))
      case Ok(st) =>
        var next := rows + [Row(servers[j], st)];
        var res := StatusRows(servers, hw, next);
        FirstFailureFrom(servers, hw, j);
        assert res.1.Ok? ==> res.1.value[..|rows|] == next[..|rows|] && res.1.value[j] == next[j];
        assert next[..|rows|] == rows;
        res
  }

  /** The list operation; machine i's status is answered by hw(i). */
  function GetServerInfos(reg: Registry, hw: Oracle): (r: (Registry, Result<seq<ServerInfo>, PinError>))
    requires PowerBound(reg)
    ensures r.0.logs == reg.logs && r.0.logLengthLimit == reg.logLengthLimit
    ensures |r.0.servers| == |reg.servers|
    ensures r.1.Ok? ==> r.0 == reg && |r.1.value| == |reg.servers|
    ensures r.1.Ok? ==> forall i :: 0 <= i < |reg.servers| ==>
              && r.1.value[i].id == reg.servers[i].id
              && r.1.value[i].name == reg.servers[i].config.name
              && r.1.value[i].description == reg.servers[i].config.description
              && Status(reg.servers[i], hw(i)).1 == Ok(r.1.value[i].status)
              && (r.1.value[i].status == Unavailable <==> !IsConnected(reg.servers[i].tty))
    ensures r.1.Err? ==> r.1.error == HardwareFailure
    ensures r.1.Err? ==>
              exists i :: 0 <= i < |reg.servers| && FirstFailure(reg.servers, hw, 0, i) &&
                r.0.servers == reg.servers[i := Restarted(reg.servers[i])]
    ensures (forall n :: hw(n).Lines?) ==> r.1.Ok?
    ensures Ids(r.0.servers) == Ids(reg.servers) && Setups(r.0.servers) == Setups(reg.servers)
    ensures PowerBound(r.0)
    ensures LocksFree(reg) ==> LocksFree(r.0)
    ensures WellFormed(reg) ==> WellFormed(r.0)
  {
    var (servers, infos) := StatusRows(reg.servers, hw, []);
    SameSetups(servers, reg.servers);
    (reg.(servers := servers), infos)
  }

  /**
   * The detail operation: absent for an unknown id; otherwise the detail view
   * of the first machine with that id.
   */
  function GetServerHardwareInfo(reg: Registry, id: string, hw: Oracle)
    : (r: (Registry, Option<Result<HardwareInfo, PinError>>))
    requires DetailReady(reg, id)
    ensures r.1.None? <==> forall j :: 0 <= j < |reg.servers| ==> reg.servers[j].id != id
    ensures r.1.None? ==> r.0 == reg
    ensures r.0.logs == reg.logs && r.0.logLengthLimit == reg.logLengthLimit && |r.0.servers| == |reg.servers|
    ensures r.1.Some? ==> r.1.value == Detail(reg.servers[FindServer(reg.servers, id).value], hw).1
    ensures r.1.Some? && r.1.value.Ok? ==> r.0 == reg && r.1.value.value.id == id
    ensures r.1.Some? && r.1.value.Ok? ==>
              (r.1.value.value.status == Unavailable <==>
                 !IsConnected(reg.servers[FindServer(reg.servers, id).value].tty))
    ensures r.1.Some? && r.1.value.Err? ==>
              var i := FindServer(reg.servers, id).value;
              r.1.value.error == HardwareFailure && r.0.servers == reg.servers[i := Restarted(reg.servers[i])]
    ensures Ids(r.0.servers) == Ids(reg.servers) && Setups(r.0.servers) == Setups(reg.servers)
    ensures PowerBound(reg) ==> PowerBound(r.0)
    ensures LocksFree(reg) ==> LocksFree(r.0)
    ensures WellFormed(reg) ==> WellFormed(r.0)
  {
    match FindServer(reg.servers, id)
    case None => (reg, None)
    case Some(i) =>
      var (s, res) := Detail(reg.servers[i], hw);
      assert res.Ok? ==> reg.servers[i := s] == reg.servers;
      ReplaceKeepsRegistry(reg, i, s);
      (reg.(servers := reg.servers[i := s]), Some(res))
  }

  /** The log operation: absent for an unknown id, else the stored tail or the empty buffer. */
  function GetServerLog(reg: Registry, id: string): (r: Option<seq<byte>>)
    ensures r.None? <==> forall j :: 0 <= j < |reg.servers| ==> reg.servers[j].id != id
    ensures r.Some? && id !in reg.logs ==> r.value == []
    ensures r.Some? && id in reg.logs ==> r.value == reg.logs[id]
  {
    match FindServer(reg.servers, id)
    case None => None
    case Some(_) => Some(LogOf(reg, id))
  }

  /**
   * A button or toggle write addressed by machine id: an unknown machine id
   * returns quietly with nothing changed; otherwise the first machine with that
   * id handles it and no other machine or log changes.
   */
  function SetServerControl(reg: Registry, kind: Category, serverId: string, optionId: string,
                            state: bool, hw: WriteAnswer): (r: (Registry, Result<(), PinError>))
    requires kind != Leds
    requires WriteReady(reg, serverId)
    ensures FindServer(reg.servers, serverId).None? ==> r == (reg, Ok(()))
    ensures r.0.logs == reg.logs && r.0.logLengthLimit == reg.logLengthLimit
    ensures |r.0.servers| == |reg.servers|
    ensures forall j :: 0 <= j < |reg.servers| ==>
              && r.0.servers[j].id == reg.servers[j].id
              && r.0.servers[j].config == reg.servers[j].config
              && r.0.servers[j].tty.setLock == reg.servers[j].tty.setLock
    ensures Ids(r.0.servers) == Ids(reg.servers) && Setups(r.0.servers) == Setups(reg.servers)
    ensures PowerBound(reg) ==> PowerBound(r.0)
    ensures WellFormed(reg) ==> WellFormed(r.0)
    ensures FindServer(reg.servers, serverId).Some? ==>
              var i := FindServer(reg.servers, serverId).value;
              && (forall j :: 0 <= j < |reg.servers| && j != i ==> r.0.servers[j] == reg.servers[j])
              && (r.0.servers[i], r.1) == SetControl(reg.servers[i], kind, optionId, state, hw)
    ensures FindServer(reg.servers, serverId).Some? ==>
              var s := reg.servers[FindServer(reg.servers, serverId).value];
              Lookup(Entries(s.config, kind), optionId).None? || !IsConnected(s.tty) ==> r == (reg, Ok(()))
  {
    match FindServer(reg.servers, serverId)
    case None => (reg, Ok(()))
    case Some(i) =>
      var (s, res) := SetControl(reg.servers[i], kind, optionId, state, hw);
      assert s == reg.servers[i] ==> reg.servers[i := s] == reg.servers;
      ReplaceKeepsRegistry(reg, i, s);
      (reg.(servers := reg.servers[i := s]), res)
  }

  /** The button write addressed by machine id. */
  function SetServerButton(reg: Registry, serverId: string, buttonId: string, state: bool, hw: WriteAnswer)
    : (Registry, Result<(), PinError>)
    requires WriteReady(reg, serverId)
  {
    SetServerControl(reg, Buttons, serverId, buttonId, state, hw)
  }

  /** The toggle write addressed by machine id. */
  function SetServerToggle(reg: Registry, serverId: string, toggleId: string, state: bool, hw: WriteAnswer)
    : (Registry, Result<(), PinError>)
    requires WriteReady(reg, serverId)
  {
    SetServerControl(reg, Toggles, serverId, toggleId, state, hw)
  }

  // ---------------------------------------------------------------------------
  // The running service
  // ---------------------------------------------------------------------------

  /** Everything that can happen to the registry after start-up. */
  datatype Request =
    | ListMachines(hw: Oracle)
    | ShowMachine(id: string, hw: Oracle)
    | PressButton(serverId: string, buttonId: string, state: bool, answer: WriteAnswer)
    | FlipToggle(serverId: string, toggleId: string, state: bool, answer: WriteAnswer)
    | Received(server: nat, data: seq<byte>)  // a chunk on the link of the machine at `server`
    | LinkEvent(server: nat, event: Event)     // a timer, library callback or listener on that link

  /**
   * A timer, library callback or listener on the link of the machine at `i`:
   * that link takes the step and nothing else changes. Line reads and writes
   * reach a link only through the requests above, so as link events they
   * change nothing; so does an event for a position that holds no machine, or
   * one the link's state does not allow.
   */
  function OnLinkEvent(reg: Registry, i: nat, e: Event): (r: Registry)
    ensures r.logs == reg.logs && r.logLengthLimit == reg.logLengthLimit && |r.servers| == |reg.servers|
    ensures forall j :: 0 <= j < |reg.servers| && j != i ==> r.servers[j] == reg.servers[j]
    ensures i < |reg.servers| ==>
              && r.servers[i].id == reg.servers[i].id
              && r.servers[i].config == reg.servers[i].config
              && (Unprompted(e) && Enabled(reg.servers[i].tty, e) ==> r.servers[i].tty == Step(reg.servers[i].tty, e))
    ensures !Unprompted(e) || i >= |reg.servers| || !Enabled(reg.servers[i].tty, e) ==> r == reg
    ensures Ids(r.servers) == Ids(reg.servers) && Setups(r.servers) == Setups(reg.servers)
    ensures WellFormed(reg) ==> WellFormed(r)
  {
    if i < |reg.servers| && Unprompted(e) && Enabled(reg.servers[i].tty, e) then
      var l := reg.servers[i].tty;
      var next := Step(l, e);
      assert Live(l) ==> Live(next) by {
        if Live(l) {
          StepPreservesLive(l, e);
        }
      }
      reg.(servers := reg.servers[i := reg.servers[i].(tty := next)])
    else reg
  }

  /**
   * One step of the running service. A chunk or link event for a position
   * that holds no machine, or a link event that cannot occur in the link's
   * current state, changes nothing.
   */
  function Apply(reg: Registry, rq: Request): (r: Registry)
    requires WellFormed(reg)
    ensures WellFormed(r)
    ensures |r.servers| == |reg.servers| && r.logLengthLimit == reg.logLengthLimit
    ensures !rq.Received? ==> r.logs == reg.logs
    ensures rq.Received? ==> r.servers == reg.servers
    ensures rq.Received? && rq.server < |reg.servers| ==>
              var id := reg.servers[rq.server].id;
              && LogOf(r, id) == LogTail.LastN(LogOf(reg, id) + rq.data, LogTail.Window(reg.logLengthLimit))
              && forall other :: other != id ==> LogOf(r, other) == LogOf(reg, other)
    ensures rq.Received? && rq.server >= |reg.servers| ==> r == reg
    ensures rq.LinkEvent? ==> r == OnLinkEvent(reg, rq.server, rq.event)
    ensures Ids(r.servers) == Ids(reg.servers) && Setups(r.servers) == Setups(reg.servers)
  {
    match rq
    case ListMachines(hw) =>
      WellFormedServesAll(reg, "");
      GetServerInfos(reg, hw).0
    case ShowMachine(id, hw) =>
      WellFormedServesAll(reg, id);
      GetServerHardwareInfo(reg, id, hw).0
    case PressButton(serverId, buttonId, state, answer) =>
      WellFormedServesAll(reg, serverId);
      SetServerButton(reg, serverId, buttonId, state, answer).0
    case FlipToggle(serverId, toggleId, state, answer) =>
      WellFormedServesAll(reg, serverId);
      SetServerToggle(reg, serverId, toggleId, state, answer).0
    case Received(i, data) =>
      if i < |reg.servers| then OnData(reg, i, data) else reg
    case LinkEvent(i, e) => OnLinkEvent(reg, i, e)
  }

  /**
   * The running service handles a history of requests in order; whatever the
   * history, the registry invariant still holds, so every request's
   * precondition is met.
   */
  function Serve(reg: Registry, rqs: seq<Request>): (r: Registry)
    requires WellFormed(reg)
    ensures WellFormed(r)
    ensures |r.servers| == |reg.servers| && r.logLengthLimit == reg.logLengthLimit
    ensures Ids(r.servers) == Ids(reg.servers) && Setups(r.servers) == Setups(reg.servers)
    decreases |rqs|
  {
    if |rqs| == 0 then reg
    else Serve(Apply(reg, rqs[0]), rqs[1..])
  }

  /**
   * The bytes a history of requests delivers to the machines with id `id`, in
   * order, for a registry whose machine ids are `ids`.
   */
  function ReceivedBytes(ids: seq<string>, rqs: seq<Request>, id: string): seq<byte>
    decreases |rqs|
  {
    if |rqs| == 0 then []
    else
      ReceivedHere(ids, rqs[0], id) + ReceivedBytes(ids, rqs[1..], id)
  }

  /** The bytes one request delivers to the machines with id `id`. */
  function ReceivedHere(ids: seq<string>, rq: Request, id: string): seq<byte> {
    if rq.Received? && rq.server < |ids| && ids[rq.server] == id then rq.data else []
  }

  /** One request moves an id's log by the log rule over the bytes it delivers to that id. */
  lemma ApplyLogStep(reg: Registry, rq: Request, id: string)
    requires WellFormed(reg)
    requires |LogOf(reg, id)| <= LogTail.Window(reg.logLengthLimit)
    ensures var n := LogTail.Window(reg.logLengthLimit);
      var r := Apply(reg, rq);
      && LogOf(r, id) == LogTail.LastN(LogOf(reg, id) + ReceivedHere(Ids(reg.servers), rq, id), n)
      && |LogOf(r, id)| <= n
  {
    var x := LogOf(reg, id);
    if ReceivedHere(Ids(reg.servers), rq, id) == [] {
      assert x + [] == x;
      if rq.Received? && rq.server < |reg.servers| {
        assert reg.servers[rq.server].id != id || rq.data == [];
      }
    }
  }

  /**
   * Whatever else happens in between (list and detail requests, writes, link
   * failures and reconnects), the log of an id that fits its window ends up as
   * the last `logLengthLimit` bytes of that log followed by everything the
   * history delivered to that id.
   */
  lemma {:induction false} ServedLogIsTail(reg: Registry, rqs: seq<Request>, id: string)
    requires WellFormed(reg)
    requires |LogOf(reg, id)| <= LogTail.Window(reg.logLengthLimit)
    ensures LogOf(Serve(reg, rqs), id) ==
              LogTail.LastN(LogOf(reg, id) + ReceivedBytes(Ids(reg.servers), rqs, id), LogTail.Window(reg.logLengthLimit))
    decreases |rqs|
  {
    var x := LogOf(reg, id);
    if |rqs| == 0 {
      assert x + [] == x;
    } else {
      var ids := Ids(reg.servers);
      var reg1 := Apply(reg, rqs[0]);
      assert Ids(reg1.servers) == ids && reg1.logLengthLimit == reg.logLengthLimit;
      ApplyLogStep(reg, rqs[0], id);
      ServedLogIsTail(reg1, rqs[1..], id);
      LogTail.LastNChain(x, ReceivedHere(ids, rqs[0], id), ReceivedBytes(ids, rqs[1..], id),
                         LogTail.Window(reg.logLengthLimit));
    }
  }

  /**
   * From start-up, under any history of requests, the log the dashboard reads
   * for a configured machine is the last `limit` bytes of everything its id
   * received.
   */
  lemma StartupServedLogIsTail(configs: seq<ConfigEntry>, limit: int, ctorThrows: nat -> bool,
                               rqs: seq<Request>, i: nat)
    requires i < |configs|
    requires forall j :: 0 <= j < |configs| ==> PowerResolves(configs[j].config)
    ensures var reg := Init(configs, limit, ctorThrows);
      GetServerLog(Serve(reg, rqs), configs[i].id) ==
        Some(LogTail.LastN(ReceivedBytes(Ids(reg.servers), rqs, configs[i].id), LogTail.Window(limit)))
  {
    var reg := Init(configs, limit, ctorThrows);
    ServedLogIsTail(reg, rqs, configs[i].id);
    var r := Serve(reg, rqs);
    assert r.servers[i].id == Ids(r.servers)[i] == configs[i].id;
    assert [] + ReceivedBytes(Ids(reg.servers), rqs, configs[i].id) == ReceivedBytes(Ids(reg.servers), rqs, configs[i].id);
  }

  // ---------------------------------------------------------------------------
  // Properties across operations
  // ---------------------------------------------------------------------------

  /**
   * The list and the detail view apply one status rule: given the same
   * hardware answer to the power query, they report the same status for a
   * machine.
   */
  lemma ListAndDetailAgree(reg: Registry, id: string, hwList: Oracle, hwDetail: Oracle)
    requires PowerBound(reg)
    requires FindServer(reg.servers, id).Some?
    requires hwList(FindServer(reg.servers, id).value) == hwDetail(0)
    ensures var list := GetServerInfos(reg, hwList).1;
      var detail := GetServerHardwareInfo(reg, id, hwDetail).1;
      list.Ok? && detail.Some? && detail.value.Ok? ==>
        list.value[FindServer(reg.servers, id).value].status == detail.value.value.status
  {
  }

  /**
   * While connected, every report for an option bound to an output line shows
   * that line's shadow value.
   */
  lemma ReportsShowShadow(s: Server, entries: seq<OptionEntry>, id: string, hw: Oracle, k: nat)
    requires IsConnected(s.tty) && DistinctIds(entries)
    requires Lookup(entries, id).Some? && Lookup(entries, id).value.pin.IsOutput()
    requires ReadOptions(s, entries, hw, k, []).1.Ok?
    ensures var infos := ReadOptions(s, entries, hw, k, []).1.value;
      forall j :: 0 <= j < |infos| && infos[j].id == id ==>
        infos[j].state == Some(Shadow(s.tty, Lookup(entries, id).value.pin))
  {
    var infos := ReadOptions(s, entries, hw, k, []).1.value;
    var pin := Lookup(entries, id).value.pin;
    forall j | 0 <= j < |infos| && infos[j].id == id
      ensures infos[j].state == Some(Shadow(s.tty, pin))
    {
      assert entries[j].option.pin == pin;
      assert GetPinState(s.tty, pin, hw(k + j)).1 == Ok(infos[j].state.value);
    }
  }

  /**
   * While connected and with every hardware query answered, the detail view
   * reports each toggle bound to an output line with that line's shadow value.
   */
  lemma DetailShowsToggleShadow(s: Server, toggleId: string, hw: Oracle)
    requires IsConnected(s.tty) && PowerResolves(s.config)
    requires DistinctIds(s.config.toggles)
    requires Lookup(s.config.toggles, toggleId).Some?
    requires Lookup(s.config.toggles, toggleId).value.pin.IsOutput()
    requires forall n :: hw(n).Lines?
    ensures var detail := Detail(s, hw).1;
      && detail.Ok?
      && forall j :: 0 <= j < |detail.value.toggles| && detail.value.toggles[j].id == toggleId ==>
           detail.value.toggles[j].state == Some(Shadow(s.tty, Lookup(s.config.toggles, toggleId).value.pin))
  {
    var k := 1 + |s.config.leds| + |s.config.buttons|;
    ReportsShowShadow(s, s.config.toggles, toggleId, hw, k);
  }

  /**
   * On one machine, an acknowledged toggle write is what the next detail view
   * reports for that toggle.
   */
  lemma ToggleWriteVisibleInDetail(s: Server, toggleId: string, v: bool, hw: Oracle)
    requires IsConnected(s.tty) && PowerResolves(s.config) && s.tty.setLock > 0
    requires DistinctIds(s.config.toggles)
    requires Lookup(s.config.toggles, toggleId).Some?
    requires Lookup(s.config.toggles, toggleId).value.pin.IsOutput()
    requires forall n :: hw(n).Lines?
    ensures var s1 := SetToggle(s, toggleId, v, WriteOk).0;
      var detail := Detail(s1, hw).1;
      && detail.Ok?
      && forall j :: 0 <= j < |detail.value.toggles| && detail.value.toggles[j].id == toggleId ==>
           detail.value.toggles[j].state == Some(v)
  {
    var pin := Lookup(s.config.toggles, toggleId).value.pin;
    var s1 := SetToggle(s, toggleId, v, WriteOk).0;
    assert IsConnected(s1.tty) && Shadow(s1.tty, pin) == v && s1.config == s.config;
    DetailShowsToggleShadow(s1, toggleId, hw);
  }

  /**
   * Addressed by machine id: an acknowledged toggle write on a connected
   * machine shows up in the next detail view of that machine.
   */
  lemma SetToggleThenDetailShowsIt(reg: Registry, serverId: string, toggleId: string, v: bool, hw: Oracle)
    requires FindServer(reg.servers, serverId).Some?
    requires var s := reg.servers[FindServer(reg.servers, serverId).value];
      && IsConnected(s.tty)
      && PowerResolves(s.config)
      && s.tty.setLock > 0
      && DistinctIds(s.config.toggles)
      && Lookup(s.config.toggles, toggleId).Some?
      && Lookup(s.config.toggles, toggleId).value.pin.IsOutput()
    requires forall n :: hw(n).Lines?
    ensures SetServerToggle(reg, serverId, toggleId, v, WriteOk).1 == Ok(())
    ensures var reg1 := SetServerToggle(reg, serverId, toggleId, v, WriteOk).0;
      var info := GetServerHardwareInfo(reg1, serverId, hw).1;
      && info.Some? && info.value.Ok?
      && forall j :: 0 <= j < |info.value.value.toggles| && info.value.value.toggles[j].id == toggleId ==>
           info.value.value.toggles[j].state == Some(v)
  {
    var i := FindServer(reg.servers, serverId).value;
    var s := reg.servers[i];
    var reg1 := SetServerToggle(reg, serverId, toggleId, v, WriteOk).0;
    var s1 := SetToggle(s, toggleId, v, WriteOk).0;
    assert reg1.servers[i] == s1;
    ToggleWriteVisibleInDetail(s, toggleId, v, hw);
    assert FindServer(reg1.servers, serverId) == Some(i);
    assert DetailReady(reg1, serverId);
    assert GetServerHardwareInfo(reg1, serverId, hw).1 == Some(Detail(s1, hw).1);
  }

  /**
   * In a running registry, a machine whose handle is still opening is
   * connected once the open succeeds, and both its output lines are low once
   * the baseline clear is answered; no other machine changes on the way.
   */
  lemma OpenThenClearConnects(reg0: Registry, i: nat)
    requires WellFormed(reg0) && i < |reg0.servers|
    requires reg0.servers[i].tty.port == Some(Port(false))
    ensures var reg := Serve(reg0, [LinkEvent(i, Opened(false)), LinkEvent(i, Cleared(false))]);
      && IsConnected(reg.servers[i].tty) && !reg.servers[i].tty.dtr && !reg.servers[i].tty.rts
      && forall j :: 0 <= j < |reg0.servers| && j != i ==> reg.servers[j] == reg0.servers[j]
  {
    var rqs := [LinkEvent(i, Opened(false)), LinkEvent(i, Cleared(false))];
    var reg1 := Apply(reg0, rqs[0]);
    assert IsConnected(reg1.servers[i].tty) && reg1.servers[i].tty.clearsPending > 0;
    var reg2 := Apply(reg1, rqs[1..][0]);
    assert rqs[1..][1..] == [];
    assert Serve(reg0, rqs) == Serve(reg1, rqs[1..]) == reg2;
  }

  /**
   * From start-up, a machine whose handle was created is connected once its
   * open succeeds, and both its output lines are low once the baseline clear
   * is answered; no other machine changes on the way.
   */
  lemma StartupConnects(configs: seq<ConfigEntry>, limit: int, ctorThrows: nat -> bool, i: nat)
    requires i < |configs| && !ctorThrows(i)
    requires forall j :: 0 <= j < |configs| ==> PowerResolves(configs[j].config)
    ensures var reg0 := Init(configs, limit, ctorThrows);
      var reg := Serve(reg0, [LinkEvent(i, Opened(false)), LinkEvent(i, Cleared(false))]);
      && IsConnected(reg.servers[i].tty) && !reg.servers[i].tty.dtr && !reg.servers[i].tty.rts
      && forall j :: 0 <= j < |configs| && j != i ==> reg.servers[j] == reg0.servers[j]
  {
    var reg0 := Init(configs, limit, ctorThrows);
    assert reg0.servers[i].tty.port == Some(Port(false));
    OpenThenClearConnects(reg0, i);
  }
}

=== FILE: tty_link.dfy ===
/**
 * The managed serial link to one machine: connection lifecycle with automatic
 * reconnect, and the shadow of the two output handshake lines.
 *
 * The link is an immutable record; every callback the serial-port library or
 * the timer runtime would deliver is a pure transition on it, and every answer
 * the hardware would give is a parameter of that transition.
 */
module TtyLink {
  import opened Outcomes

  /** The four handshake lines of a serial port. */
  datatype Pin = Dtr | Rts | Cts | Dsr {

    /** DTR and RTS are driven by the program; CTS and DSR are only sensed. */
    predicate IsOutput() {
      this == Dtr || this == Rts
    }

    /** The output line paired with this one in a single line-control write. */
    function Other(): (p: Pin)
      requires IsOutput()
      ensures p.IsOutput() && p != this
    {
      if this == Dtr then Rts else Dtr
    }
  }

  /** Where and how fast the device is opened; never changes after construction. */
  datatype TtyConfig = TtyConfig(path: string, baudRate: int)

  /** Why a pin operation rejects. */
  datatype PinError =
    | NotConnected     // the operation was attempted without an open handle
    | InvalidPin       // an input line was named where only an output line is allowed
    | HardwareFailure  // the line-control call itself reported an error

  /** A serial-port handle; `isOpen` is the library's own open flag. */
  datatype Port = Port(isOpen: bool)

  /** Identifies one `setTimeout` registration. */
  type TimerId = nat

  /**
   * The state of one link.
   *  - `port`: the current handle, absent after a restart;
   *  - `dtr`, `rts`: the shadow of the last values committed to the output lines;
   *  - `restartTimeout`: the timer handle the object remembers (it is not
   *    forgotten when the timer fires);
   *  - `armed`: the timers the runtime will still fire, each of which calls start;
   *  - `nextTimer`: the identity the next `setTimeout` returns;
   *  - `clearsPending`: baseline clears issued on connect and not yet answered;
   *  - `setLock`: free permits of the semaphore guarding pin writes.
   */
  datatype Link = Link(
    config: TtyConfig,
    port: Option<Port>,
    dtr: bool,
    rts: bool,
    restartTimeout: Option<TimerId>,
    armed: set<TimerId>,
    nextTimer: TimerId,
    clearsPending: nat,
    setLock: nat)

  /** The answer of the hardware to a line-state query. */
  datatype LineRead = ReadFailed | Lines(cts: bool, dsr: bool)

  /** The answer of the hardware to a line-control write. */
  datatype WriteAnswer = WriteOk | WriteFailed

  /**
   * The link is usable exactly when a handle exists and the library's open flag
   * on it is set; a missing handle, or one still opening, is not connected.
   */
  predicate IsConnected(l: Link)
    ensures IsConnected(l) <==> l.port == Some(Port(true))
    ensures l.port.None? ==> !IsConnected(l)
  {
    l.port.Some? && l.port.value.isOpen
  }

  /** The shadow value of an output line. */
  function Shadow(l: Link, p: Pin): bool
    requires p.IsOutput()
  {
    if p == Dtr then l.dtr else l.rts
  }

  /**
   * The state-machine invariant: the single semaphore permit is free between
   * operations, the remembered timer handle is older than any handle still to be
   * issued, and at most one reconnect timer is armed, that one is the remembered
   * handle, and it is only ever armed while there is no handle.
   */
  predicate Valid(l: Link) {
    && l.setLock == 1
    && (l.restartTimeout.Some? ==> l.restartTimeout.value < l.nextTimer)
    && (l.armed != {} ==>
          && l.restartTimeout.Some?
          && l.armed == {l.restartTimeout.value}
          && l.port.None?)
  }

  /**
   * A valid link that keeps trying to connect: whenever it has no handle, a
   * reconnect timer is armed. Only the link the constructor builds, before its
   * own start call, lacks both.
   */
  predicate Live(l: Link) {
    Valid(l) && (l.port.None? ==> l.armed != {})
  }

  /** The link as the constructor builds it, before it calls start. */
  function Fresh(config: TtyConfig): (l: Link)
    ensures Valid(l) && !IsConnected(l)
    ensures l.config == config && l.port.None? && l.restartTimeout.None? && l.clearsPending == 0
    ensures l.armed == {} && !l.dtr && !l.rts
  {
    Link(config, None, false, false, None, {}, 0, 0, 1)
  }

  /**
   * Drops the handle (closing and destroying it, errors ignored), cancels the
   * remembered reconnect timer and arms exactly one new one.
   */
  function Restart(l: Link): (r: Link)
    ensures r.port.None? && !IsConnected(r)
    ensures r.restartTimeout.Some? && r.restartTimeout.value in r.armed
    ensures l.restartTimeout.Some? && l.restartTimeout.value < l.nextTimer ==>
              l.restartTimeout.value !in r.armed
    ensures r.armed <= l.armed + {r.restartTimeout.value}
    ensures Valid(l) ==> Valid(r) && r.armed == {r.restartTimeout.value}
    ensures r.dtr == l.dtr && r.rts == l.rts
    ensures r.config == l.config && r.setLock == l.setLock && r.clearsPending == l.clearsPending
  {
    var cancelled := if l.restartTimeout.Some? then l.armed - {l.restartTimeout.value} else l.armed;
    l.(port := None,
       restartTimeout := Some(l.nextTimer),
       armed := cancelled + {l.nextTimer},
       nextTimer := l.nextTimer + 1)
  }

  /**
   * Creates a handle unless one already exists. When the library constructor
   * throws, the link restarts instead. The open itself completes later, in
   * `OpenCallback`.
   */
  function Start(l: Link, ctorThrows: bool): (r: Link)
    ensures l.port.Some? ==> r == l
    ensures l.port.None? && !ctorThrows ==> r.port == Some(Port(false))
    ensures l.port.None? && ctorThrows ==> r == Restart(l)
    ensures IsConnected(r) <==> IsConnected(l)
    ensures Valid(l) && l.armed == {} ==> Valid(r)
    ensures r.dtr == l.dtr && r.rts == l.rts && r.setLock == l.setLock && r.config == l.config
  {
    if l.port.Some? then l
    else if ctorThrows then Restart(l)
    else l.(port := Some(Port(false)))
  }

  /**
   * The library reports the outcome of opening the current handle. On failure
   * the link restarts; on success the handle is open, the listeners are
   * attached and a clear of both output lines is issued.
   */
  function OpenCallback(l: Link, error: bool): (r: Link)
    requires l.port == Some(Port(false))
    ensures IsConnected(r) <==> !error
    ensures error ==> r == Restart(l)
    ensures !error ==> r.clearsPending == l.clearsPending + 1 && r.armed == l.armed
    ensures r.dtr == l.dtr && r.rts == l.rts && r.setLock == l.setLock && r.config == l.config
  {
    if error then Restart(l)
    else l.(port := Some(Port(true)), clearsPending := l.clearsPending + 1)
  }

  /**
   * The answer to the baseline clear. Whatever the answer, the shadow becomes
   * all-low: an error is only logged.
   */
  function ClearCallback(l: Link, error: bool): (r: Link)
    requires l.clearsPending > 0
    ensures !r.dtr && !r.rts
    ensures r.port == l.port && r.armed == l.armed && r.setLock == l.setLock && r.config == l.config
    ensures r.clearsPending == l.clearsPending - 1
  {
    l.(dtr := false, rts := false, clearsPending := l.clearsPending - 1)
  }

  /**
   * Reads one line. Output lines are answered from the shadow without touching
   * the hardware; input lines are read live, and a failed read restarts the link.
   */
  function GetPinState(l: Link, pin: Pin, hw: LineRead): (r: (Link, Result<bool, PinError>))
    ensures !IsConnected(l) ==> r == (l, Err(NotConnected))
    ensures r.1.Ok? ==> r.0 == l
    ensures r.1.Err? ==> r.1.error != InvalidPin
    ensures r.1 == Err(HardwareFailure) <==> IsConnected(l) && !pin.IsOutput() && hw.ReadFailed?
    ensures r.1 == Err(HardwareFailure) ==> r.0 == Restart(l)
    ensures IsConnected(l) && pin.IsOutput() ==> r.1 == Ok(Shadow(l, pin))
    ensures IsConnected(l) && pin == Cts && hw.Lines? ==> r.1 == Ok(hw.cts)
    ensures IsConnected(l) && pin == Dsr && hw.Lines? ==> r.1 == Ok(hw.dsr)
  {
    if !IsConnected(l) then (l, Err(NotConnected))
    else
      match pin
      case Dtr => (l, Ok(l.dtr))
      case Rts => (l, Ok(l.rts))
      case _ =>
        match hw
        case ReadFailed => (Restart(l), Err(HardwareFailure))
        case Lines(cts, dsr) => (l, Ok(if pin == Dsr then dsr else cts))
  }

  /**
   * Drives one output line. Under the semaphore, the new pair is the requested
   * value for `pin` and the shadow value for the other line; the pair is
   * committed to the shadow only when the hardware acknowledges the write, and a
   * failed write restarts the link. The permit is handed back on every path
   * that took it; the guard failures never take it.
   */
  function SetPinState(l: Link, pin: Pin, state: bool, hw: WriteAnswer): (r: (Link, Result<(), PinError>))
    requires IsConnected(l) && pin.IsOutput() ==> l.setLock > 0
    ensures r.0.setLock == l.setLock && r.0.config == l.config
    ensures !IsConnected(l) ==> r == (l, Err(NotConnected))
    ensures IsConnected(l) && !pin.IsOutput() ==> r == (l, Err(InvalidPin))
    ensures r.1.Ok? <==> IsConnected(l) && pin.IsOutput() && hw == WriteOk
    ensures r.1.Ok? ==> Shadow(r.0, pin) == state
    ensures r.1.Ok? ==> Shadow(r.0, pin.Other()) == Shadow(l, pin.Other())
    ensures r.1.Ok? ==> r.0 == l.(dtr := r.0.dtr, rts := r.0.rts)
    ensures r.1 == Err(HardwareFailure) <==> IsConnected(l) && pin.IsOutput() && hw == WriteFailed
    ensures r.1 == Err(HardwareFailure) ==> r.0 == Restart(l)
    ensures Valid(l) ==> Valid(r.0)
    ensures Live(l) ==> Live(r.0)
  {
    if !IsConnected(l) then (l, Err(NotConnected))
    else if !pin.IsOutput() then (l, Err(InvalidPin))
    else
      var held := l.(setLock := l.setLock - 1);
      var newDtr := if pin == Dtr then state else held.dtr;
      var newRts := if pin == Rts then state else held.rts;
      match hw
      case WriteOk =>
        var committed := held.(dtr := newDtr, rts := newRts);
        (committed.(setLock := committed.setLock + 1), Ok(()))
      case WriteFailed =>
        var restarted := Restart(held);
        (restarted.(setLock := restarted.setLock + 1), Err(HardwareFailure))
  }

  /** Everything the runtime, the library or a caller can do to a link. */
  datatype Event =
    | Fire(timer: TimerId, ctorThrows: bool)  // an armed reconnect timer elapses and calls start
    | Opened(error: bool)                      // the open callback of the current handle
    | Cleared(error: bool)                     // the answer to a baseline clear
    | Fault                                    // the handle's error or close listener
    | Read(pin: Pin, reply: LineRead)          // a caller reads a line
    | Write(pin: Pin, state: bool, answer: WriteAnswer)  // a caller sets a line

  /**
   * The events the timer runtime or the library delivers on its own, as
   * opposed to a caller's line read or write.
   */
  predicate Unprompted(e: Event) {
    e.Fire? || e.Opened? || e.Cleared? || e.Fault?
  }

  /** Whether the event can be delivered in this state. */
  predicate Enabled(l: Link, e: Event) {
    match e
    case Fire(t, _) => t in l.armed
    case Opened(_) => l.port == Some(Port(false))
    case Cleared(_) => l.clearsPending > 0
    case Fault => true
    case Read(_, _) => true
    case Write(pin, _, _) => IsConnected(l) && pin.IsOutput() ==> l.setLock > 0
  }

  /** Delivers one event; a firing timer is disarmed and then calls start. */
  function Step(l: Link, e: Event): Link
    requires Enabled(l, e)
  {
    match e
    case Fire(t, ctorThrows) => Start(l.(armed := l.armed - {t}), ctorThrows)
    case Opened(error) => OpenCallback(l, error)
    case Cleared(error) => ClearCallback(l, error)
    case Fault => Restart(l)
    case Read(pin, reply) => GetPinState(l, pin, reply).0
    case Write(pin, state, answer) => SetPinState(l, pin, state, answer).0
  }

  /** Delivers a history of events in order, ignoring any that cannot occur. */
  function Run(l: Link, es: seq<Event>): Link
    decreases |es|
  {
    if |es| == 0 then l
    else
      var next := if Enabled(l, es[0]) then Step(l, es[0]) else l;
      Run(next, es[1..])
  }

  /** Every single event keeps the state-machine invariant. */
  lemma StepPreservesValid(l: Link, e: Event)
    requires Valid(l) && Enabled(l, e)
    ensures Valid(Step(l, e))
  {
    match e
    case Fire(t, ctorThrows) =>
      var disarmed := l.(armed := l.armed - {t});
      assert disarmed.armed == {};
      assert Valid(disarmed);
    case Opened(error) =>
    case Cleared(error) =>
    case Fault =>
    case Read(pin, reply) =>
    case Write(pin, state, answer) =>
  }

  /**
   * Every single event keeps a live link live: each way of losing the handle
   * arms a timer, and a firing timer either creates a handle or restarts.
   */
  lemma StepPreservesLive(l: Link, e: Event)
    requires Live(l) && Enabled(l, e)
    ensures Live(Step(l, e))
  {
    StepPreservesValid(l, e);
  }

  /**
   * From the state the constructor creates, after any history of events, at
   * most one reconnect timer is armed, a timer only fires while there is no
   * handle (so start never finds a connection to duplicate), and the write
   * semaphore is free.
   */
  lemma {:induction false} RunPreservesValid(l: Link, es: seq<Event>)
    requires Valid(l)
    ensures Valid(Run(l, es))
    ensures |Run(l, es).armed| <= 1
    ensures Live(l) ==> Live(Run(l, es))
    ensures Live(l) && Run(l, es).port.None? ==> Run(l, es).armed == {Run(l, es).restartTimeout.value}
    decreases |es|
  {
    if |es| > 0 {
      var next := if Enabled(l, es[0]) then Step(l, es[0]) else l;
      if Enabled(l, es[0]) {
        StepPreservesValid(l, es[0]);
        if Live(l) {
          StepPreservesLive(l, es[0]);
        }
      }
      RunPreservesValid(next, es[1..]);
    } else {
      if l.armed != {} {
        assert l.armed == {l.restartTimeout.value};
      }
    }
  }

  /** No event changes the link's configuration, which the source declares readonly. */
  lemma StepKeepsConfig(l: Link, e: Event)
    requires Enabled(l, e)
    ensures Step(l, e).config == l.config
  {
  }

  /** After any history of events the link still has the configuration it was built with. */
  lemma {:induction false} RunKeepsConfig(l: Link, es: seq<Event>)
    ensures Run(l, es).config == l.config
    decreases |es|
  {
    if |es| > 0 {
      var next := if Enabled(l, es[0]) then Step(l, es[0]) else l;
      if Enabled(l, es[0]) {
        StepKeepsConfig(l, es[0]);
      }
      RunKeepsConfig(next, es[1..]);
    }
  }

  /** The constructor's own start call leaves a valid link. */
  lemma ConstructedLinkValid(config: TtyConfig, ctorThrows: bool)
    ensures Valid(Start(Fresh(config), ctorThrows))
    ensures Live(Start(Fresh(config), ctorThrows))
    ensures !IsConnected(Start(Fresh(config), ctorThrows))
  {
  }

  /** A start while any handle exists, open or not, changes nothing. */
  lemma StartNeverDuplicates(l: Link, ctorThrows: bool)
    requires l.port.Some?
    ensures Start(l, ctorThrows) == l
  {
  }

  /**
   * Restarting twice in a row leaves exactly one armed timer, the one the second
   * restart created: the first one is cancelled rather than added to.
   */
  lemma RestartTwiceKeepsOneTimer(l: Link)
    requires Valid(l)
    ensures var r := Restart(Restart(l));
      && r.port.None?
      && r.armed == {r.restartTimeout.value}
      && Restart(l).restartTimeout.value !in r.armed
  {
  }

  /**
   * A successful open followed by the answer to the baseline clear, whatever
   * that answer, leaves the link connected with both output lines low.
   */
  lemma ConnectEstablishesBaseline(l: Link, clearError: bool)
    requires l.port == Some(Port(false))
    ensures var up := OpenCallback(l, false);
      && up.clearsPending > 0
      && IsConnected(ClearCallback(up, clearError))
      && !ClearCallback(up, clearError).dtr
      && !ClearCallback(up, clearError).rts
  {
  }

  /** Reading an output line never depends on the hardware's answer. */
  lemma OutputReadIgnoresHardware(l: Link, pin: Pin, hw1: LineRead, hw2: LineRead)
    requires pin.IsOutput()
    ensures GetPinState(l, pin, hw1) == GetPinState(l, pin, hw2)
  {
  }

  /**
   * Two acknowledged writes to the two different output lines are both visible
   * to later reads, which answer from the shadow alone.
   */
  lemma SetThenGetBothLines(l: Link, a: Pin, v1: bool, b: Pin, v2: bool, hw: LineRead)
    requires IsConnected(l) && l.setLock > 0
    requires a.IsOutput() && b.IsOutput() && a != b
    ensures var (l1, r1) := SetPinState(l, a, v1, WriteOk);
      var (l2, r2) := SetPinState(l1, b, v2, WriteOk);
      && r1.Ok? && r2.Ok?
      && GetPinState(l2, a, hw) == (l2, Ok(v1))
      && GetPinState(l2, b, hw) == (l2, Ok(v2))
  {
    var (l1, r1) := SetPinState(l, a, v1, WriteOk);
    assert b == a.Other();
    assert a == b.Other();
  }

  /** Of two acknowledged writes to the same line, the later one wins. */
  lemma SetSameLineLastWins(l: Link, a: Pin, v1: bool, v2: bool, hw: LineRead)
    requires IsConnected(l) && l.setLock > 0 && a.IsOutput()
    ensures var (l1, _) := SetPinState(l, a, v1, WriteOk);
      var (l2, _) := SetPinState(l1, a, v2, WriteOk);
      && GetPinState(l2, a, hw).1 == Ok(v2)
      && GetPinState(l2, a.Other(), hw).1 == Ok(Shadow(l, a.Other()))
  {
  }

  /**
   * A rejected write leaves both shadow values as they were, drops the handle
   * with exactly one reconnect pending, and hands the permit back.
   */
  lemma FailedWriteRestarts(l: Link, pin: Pin, state: bool)
    requires Valid(l) && IsConnected(l) && pin.IsOutput()
    ensures var (r, res) := SetPinState(l, pin, state, WriteFailed);
      && res == Err(HardwareFailure)
      && r.dtr == l.dtr && r.rts == l.rts
      && !IsConnected(r)
      && r.armed == {r.restartTimeout.value}
      && r.setLock == 1
  {
  }
}
